=== FILE: README.md ===
# autowheel release reconciliation, modelled in Dafny

autowheel builds the wheels that a package on PyPI is missing for one platform. For each
package, `process()` in `autowheel/autowheel.py` does the following:
- reads a configuration that maps package versions to the Python tags to build (`cp27`,
  `cp35`, ...);
- walks the package's releases on the index and skips releases older than every configured
  version;
- resolves each remaining release to the nearest configured version at or below it;
- works out which required tags have no wheel for the platform yet;
- for a release with missing tags, writes the `CIBW_*` settings into the process
  environment;
- calls cibuildwheel once per missing tag, in sorted order, and stops the whole run at the
  first non-zero exit.

This project models that core:

| module | file | what it holds |
|---|---|---|
| `Lex` | `lex.dfy` | Python's ordering of lists: lexicographic, with a proper prefix first. It is a strict total order. |
| `Tags` | `tags.dfy` | Python tags as strings. It models `sub in s`, string order by code point, and strictly sorted tag lists (`sorted(set(...))`). |
| `Versions` | `versions.dfy` | Versions as their numeric components (the `LooseVersion` reading). The configuration is a sequence of entries in dictionary order. The resolver maps a release to `OutOfRange` or to the entry it falls under. |
| `Wheels` | `wheels.dfy` | File records of a release and the scan over them: wheel tags for the platform, and the last `sdist`. Also the sorted missing list. |
| `Builder` | `builder.dfy` | The process environment as a map. It covers the release settings, the per-tag build selector and before-build hook, and the fail-fast build loop. |
| `Reconcile` | `reconcile.dfy` | The decision for one release and the run over all releases of a package. |
| `Results`, `Aborts` | `results.dfy` | `Option`, `Result`, and the ways a run aborts. |

The environment is a functional `map<string, string>`. The contracts therefore state, key
by key, what each step writes and that every other key keeps its value.

The builder is a table of exit codes indexed by release name and tag; a pair that is absent
exits with 0. Release names are the keys of the index's `releases` dictionary (line 46), so
they are distinct. A run therefore calls the builder at most once per pair, and one table
describes any behaviour of the builder over a run. The model accepts a release list with a
repeated name; both releases then get the same exit codes.

`PYTHON_TAGS` (the recognised tag vocabulary) and `MIN_NUMPY` (the numpy pin table) are
parameters of the model, not fixed data.

Notable behaviour of the code, which the model keeps:

- **More than one `sdist` record.**
  - The scan keeps the last `sdist` record of a release.
  - A missing `sdist` fails only when the release is about to be built: `sdist` is still
    `None` where its URL is read at line 94. A release that is skipped needs no `sdist`
    (`Reconcile.Decide`).
- **Releases between two configured versions.**
  - The comment at lines 25-32 describes the configuration as half-open ranges of versions,
    such as `[0.1:0.2)`.
  - Components compare as integers. `0.15` has components 0 and 15, so it is past `0.2` and
    takes `0.2`'s list, not `0.1`'s.
  - So does `0.05`, whose components are 0 and 5 (`Versions.NumericComponentOrder`,
    `Versions.LeadingZeroDropped`).
- **`ignore_existing` when every wheel is present.**
  - The missing list is empty, so no build is issued.
  - The environment is still configured and the `sdist` still fetched
    (`Reconcile.ForcedRebuildBuildsOnlyMissing`).
- **Stale environment values.**
  - The environment is not cleared between packages or releases.
  - `CIBW_TEST_COMMAND`, `CIBW_TEST_REQUIRES` and `CIBW_BEFORE_BUILD` keep an earlier value
    when the current setting is not truthy (`Builder.ConfigureEnv`, `Builder.BuildEnvSettings`).
  - `Builder.Written` is the set of keys a release built under given settings can write: the
    platform, output directory, verbosity and build keys, each test key whose setting is truthy,
    and `CIBW_BEFORE_BUILD` when a pin or a truthy command sets it. Every other key passes from
    one release to the next unchanged.
- **Missing numpy pin.**
  - With numpy pinning on, a tag that has no entry in the pin table raises at line 135.
  - By then `CIBW_BUILD` has already been written; the model aborts with `MissingPin`.
- **Empty configuration.**
  - `min()` of an empty configuration raises before any release is looked at.
  - The model aborts with `EmptyConfig`.

## Model

| member | source | states |
|---|---|---|
| Lex.Less | autowheel/autowheel.py:50-56 | Version comparison is Python's list order: `a < b` exactly when `a` is a proper prefix of `b`, or `a` holds the smaller element at the first position where they differ. |
| Lex.Trichotomy | autowheel/autowheel.py:50-56 | Any two versions compare as exactly one of: less, equal, greater. The `<`, `<=` and `max` in the resolver therefore see a total order. |
| Lex.Transitive | autowheel/autowheel.py:50-56 | Version order is transitive. |
| Lex.NotLessIsLessEq | autowheel/autowheel.py:50-56 | A version that is not below another is at or above it. The skip test at line 50 and the candidate filter at line 56 are therefore complementary. |
| Tags.Contains | autowheel/autowheel.py:73-75 | Python's `sub in s`, as the platform and tag matching use it, holds exactly when `sub` occurs at some position of `s`. |
| Tags.ContainsAt | autowheel/autowheel.py:73-75 | A string found at a given position satisfies the substring test. |
| Tags.AbsentCharNotContained | autowheel/autowheel.py:73-75 | A string with a character absent from the filename is not a substring of it. |
| Tags.TagLess | autowheel/autowheel.py:80 | Python string order, as `sorted` uses it on tags: `a < b` exactly when `a` is a proper prefix of `b`, or `a` has the lower code point at the first differing character. |
| Tags.TagTrichotomy | autowheel/autowheel.py:80 | Python string order on tags is total, so `sorted` has a single answer. |
| Tags.TagTransitive | autowheel/autowheel.py:80 | Python string order on tags is transitive. |
| Tags.Insert | autowheel/autowheel.py:80 | Inserting a new tag into a strictly sorted list keeps it strictly sorted. Exactly the new tag is added. |
| Tags.SortedUnique | autowheel/autowheel.py:80 | Two strictly sorted lists with the same members are equal. `sorted(set(...))` therefore depends only on the set. |
| Versions.MinKey | autowheel/autowheel.py:33-34 | The minimum configured version is one of the keys and at or below every key. |
| Versions.FloorIndex | autowheel/autowheel.py:56 | The entry `max` selects has a key at or below the release, and no key at or below the release is greater. It is the first entry with that key. There is none exactly when every key is above the release. |
| Versions.Resolve | autowheel/autowheel.py:50-59 | Out of range exactly when the release is below every key. Otherwise the result is a configured entry (the first with its key) whose key is at or below the release, and no key at or below the release is greater. |
| Versions.SkipsBelowMinimum | autowheel/autowheel.py:33-52 | The resolver's out-of-range answer is exactly the skip test against the minimum configured version. |
| Versions.NoKeyBetween | autowheel/autowheel.py:54-59 | No configured key lies strictly between the resolved key and the release. The release falls in the range that starts at its key. |
| Versions.ExactKeySelected | autowheel/autowheel.py:54-59 | A release equal to a configured version resolves to that version, with the list of the first entry that has it. |
| Versions.ResolveMonotone | autowheel/autowheel.py:50-59 | A later release never resolves to an earlier configured version. Once in range, it stays in range. |
| Versions.NumericComponentOrder | autowheel/autowheel.py:33-59 | With keys 0.1 and 0.2, release 0.15 takes 0.2's list because components compare as integers. |
| Versions.LeadingZeroDropped | autowheel/autowheel.py:33-59 | With keys 0.1 and 0.2, release 0.05 (components 0 and 5) also takes 0.2's list. |
| Versions.PrefixOrder | autowheel/autowheel.py:33-59 | With keys 0.1 and 0.2, release 0.1.5 takes 0.1's list. Release 0.0.9 is below both keys and skipped. |
| Wheels.PackageTypeOf | autowheel/autowheel.py:70-78 | A record is a wheel exactly when its `packagetype` string is `bdist_wheel`, and an `sdist` exactly when it is `sdist`. Every other string is neither, and the scan ignores it. `WheelFor` and `ScanFiles` read records through it. |
| Wheels.TagsIn | autowheel/autowheel.py:74-76 | A filename contributes exactly the vocabulary tags that occur in it as substrings. |
| Wheels.ScanFiles | autowheel/autowheel.py:64-78 | A tag is collected exactly when it is in the vocabulary and some wheel for the platform contains it. No `sdist` is found exactly when no record is an `sdist`. Otherwise it is the last `sdist` record. |
| Wheels.PublishedTags | autowheel/autowheel.py:66-80 | The published set holds exactly the vocabulary tags carried by a wheel for the platform. |
| Wheels.MissingTags | autowheel/autowheel.py:80 | The missing list is strictly sorted. A tag is in it exactly when it is required and not published. |
| Wheels.MissingEmptyIff | autowheel/autowheel.py:80-84 | Nothing is missing exactly when every required tag is published. |
| Wheels.MissingDeterminedBySets | autowheel/autowheel.py:80 | The missing list depends only on the set of required tags. Order and repeats in the configured list do not matter. |
| Wheels.OtherRecordsPublishNothing | autowheel/autowheel.py:70-78 | A record that is not a wheel for the platform (an `sdist`, another type, another platform's wheel) publishes no tag. |
| Wheels.MacOsExample | autowheel/autowheel.py:70-80 | With one macOS `cp27` wheel and `cp27`, `cp35` required, exactly `cp35` is missing. |
| Builder.Family | autowheel/autowheel.py:115-120 | The platform family is `macos` exactly when the tag contains `mac`. It is `linux` exactly when it contains `linux` but not `mac`. Otherwise it is `windows`. |
| Builder.BuildSpec | autowheel/autowheel.py:132 | The `CIBW_BUILD` selector is the tag, a hyphen, then the platform tag. |
| Builder.BuildSpecInjective | autowheel/autowheel.py:132 | On one platform, distinct tags give distinct `CIBW_BUILD` selectors. |
| Builder.ConfigureEnv | autowheel/autowheel.py:115-128 | Platform family, output directory and verbosity 3 are set. Each test key is set to its setting when truthy, else left as it was. No other key changes, so every key outside `Written` keeps its value. |
| Builder.BeforeBuildHook | autowheel/autowheel.py:134-138 | With pinning on: the numpy pin for the tag and platform, or a `MissingPin` error when the table has no entry. Otherwise the before-build command when truthy, else no write. |
| Builder.BuildEnv | autowheel/autowheel.py:132-138 | A build's environment fails exactly when pinning is on and the pin is missing, and the error names the tag and platform. |
| Builder.BuildEnvSettings | autowheel/autowheel.py:132-138 | A build sees its own selector. `CIBW_BEFORE_BUILD` holds the pin, else the truthy command, else the earlier value. Every key outside `CIBW_BUILD` and `CIBW_BEFORE_BUILD` is as the builds found it. |
| Builder.BuildEnvAbsorbs | autowheel/autowheel.py:130-138 | Building one tag after another sees the same environment as building it first. Nothing leaks from one tag's build to the next. |
| Builder.BuildAll | autowheel/autowheel.py:130-148 | The builder is invoked for the missing tags in order, each with the environment its tag determines, and gets that release and tag's exit code. All calls but the last exited 0. No abort exactly when every tag was built with exit 0. A non-zero exit aborts with that code. Otherwise the pin for the next tag is missing, and every build so far exited 0. Every key other than `CIBW_BUILD` is unchanged, and so is `CIBW_BEFORE_BUILD` when there is neither a pin nor a truthy command. |
| Reconcile.Decide | autowheel/autowheel.py:50-94 | Below minimum exactly when the release is below every key. A release to build carries the strictly sorted list of required tags that are unpublished, and the last `sdist` record. The error is `NoSdist` and occurs only when no record is an `sdist`. |
| Reconcile.SkipRule | autowheel/autowheel.py:50-84 | A release gets past both skips exactly when it is in range and either some required tag is unpublished or `ignore_existing` is set. |
| Reconcile.ForcedRebuildBuildsOnlyMissing | autowheel/autowheel.py:80-84 | `ignore_existing` changes nothing for a release out of range or with tags missing. For a release with every wheel present, it yields a plan that builds no tag, or the missing-`sdist` error. |
| Reconcile.ConfiguredBuild | autowheel/autowheel.py:115-138 | Every build of a release sees the platform family, output directory, verbosity 3, and its own selector. `CIBW_BEFORE_BUILD` holds the numpy pin, else the truthy command, else the value the release found. Each test key holds its setting when truthy, else the value the release found. Every other key is as the release found it. |
| Reconcile.RunRelease | autowheel/autowheel.py:86-148 | A skipped release issues no build and leaves the environment as it was. A release to build records the environment it found and one builder call per missing tag, in order. Each call sees its tag's settings over that environment and gets its exit code. Every call but the last exited 0. It completes exactly when it does not abort. A build failure carries the failing exit code. A missing pin names the first unbuilt missing tag and the platform: pinning is on, the table has no pin for that pair, and every build before it exited 0. Every key outside `Written` ends as the release found it. |
| Reconcile.Step | autowheel/autowheel.py:50-148 | A release is recorded with the environment it found and the decision `Decide` makes for it. A recorded release's abort is a build failure or a missing pin, explained by its builds as for `RunRelease`. Only the missing-`sdist` error leaves it unrecorded, with the environment untouched. A recorded release not built leaves the environment as it was. Every key outside `Written` is unchanged. |
| Reconcile.RecordedPrefixAt | autowheel/autowheel.py:46-148 | Each record of a run belongs to the release at the same position on the index, with that release's decision and faithful builds. |
| Reconcile.ProgressAfterRun | autowheel/autowheel.py:46-148 | Recording the next release keeps the run's invariant. |
| Reconcile.ProgressAfterRefusal | autowheel/autowheel.py:46-148 | A release that cannot be built stops the run with `NoSdist` and no record. |
| Reconcile.Advance | autowheel/autowheel.py:46-148 | Taking one more release keeps the run's invariant. |
| Reconcile.Process | autowheel/autowheel.py:19-152 | The run aborts with `EmptyConfig` exactly when the configuration is empty, before any release. The run records releases in index order, each with its decision and faithful builds, in which every builder call but a release's last exited 0. Every release but the last recorded one completed. The run ends without abort exactly when all releases completed. A `NoSdist` abort names the next release, whose decision is that error, and every recorded release completed. A build failure's code is the last build's exit code. A missing pin names the last recorded release's first unbuilt tag, which has no pin for the platform, after builds that all exited 0. Each release finds every key outside `Written` as the run started, and so does the final environment: this includes `CIBW_BEFORE_BUILD` when there is neither a pin nor a command, and each test key whose setting is not truthy. |

## Left out

- Network access. The package index JSON and the file records are inputs. The `sdist` download, the temporary directory, `chdir` and tar extraction (lines 88-109, 150-152) are not modelled. A failure there is an abort the model does not represent.
- The check for an unexpected number of extracted directories (lines 104-107). It depends only on the archive's contents, which are not modelled.
- The cibuildwheel call itself and `sys.argv` (lines 111-113, 145). The builder is an exit-code table. A normal return and `SystemExit(0)` both count as exit code 0. `SystemExit(None)`, which the code re-raises because `None != 0`, and exceptions other than `SystemExit` are not distinguished.
- Printing (lines 23, 48, 51, 83, 86, 91, 94, 99, 108, 111, 140-142). It has no effect on the result.
- The click command line, the YAML loader and the package loop in `main` (lines 155 onwards). They only supply the arguments of `process()`.
- `LooseVersion` parsing. Versions are given as their numeric components. Alphabetic components, and the `TypeError` Python raises when comparing a number with a string component, are not modelled.
- The contents of `PYTHON_TAGS`, `PLATFORM_TAGS` and `MIN_NUMPY`. They are parameters: the tag vocabulary and the pin table.
- `str()` conversions of settings. Settings are strings already. The `None` output directory, which would be written as `"None"`, is not modelled.
- The environment after a run stops with an exception. The model returns it, but it only states that keys outside the `CIBW_*` keys written are unchanged.

=== FILE: builder.dfy ===
/** The build driver: the environment handed to the external wheel builder and the loop that
    invokes it once per missing tag, stopping at the first failure (autowheel/autowheel.py,
    process()). The process environment is a map that each step updates functionally. */
module Builder {
  import opened Results
  import opened Aborts
  import opened Tags

  /** The process environment, `os.environ`. */
  type Env = map<string, string>

  const PlatformKey := "CIBW_PLATFORM"
  const OutputDirKey := "CIBW_OUTPUT_DIR"
  const TestCommandKey := "CIBW_TEST_COMMAND"
  const TestRequiresKey := "CIBW_TEST_REQUIRES"
  const VerbosityKey := "CIBW_BUILD_VERBOSITY"
  const BuildKey := "CIBW_BUILD"
  const BeforeBuildKey := "CIBW_BEFORE_BUILD"

  /** The keys a release's configuration writes before its builds. */
  const ReleaseKeys: set<string> := {PlatformKey, OutputDirKey, TestCommandKey, TestRequiresKey, VerbosityKey}

  /** The keys a single build writes. */
  const BuildKeys: set<string> := {BuildKey, BeforeBuildKey}

  /** A build writes `CIBW_BEFORE_BUILD`: the numpy pin, or a truthy before-build command. */
  predicate Hooked(opts: Options)
  {
    opts.pinNumpy || Truthy(opts.beforeBuild)
  }

  /** The keys a run with these options ever writes. A test key with a setting that is not
      truthy, and `CIBW_BEFORE_BUILD` when no hook applies, are never written. */
  function Written(opts: Options): set<string>
  {
    {PlatformKey, OutputDirKey, VerbosityKey, BuildKey}
      + (if Truthy(opts.testCommand) then {TestCommandKey} else {})
      + (if Truthy(opts.testRequires) then {TestRequiresKey} else {})
      + (if Hooked(opts) then {BeforeBuildKey} else {})
  }

  /** The options of one package's run. */
  datatype Options = Options(
    platformTag: string,
    beforeBuild: Option<string>,
    outputDir: string,
    ignoreExisting: bool,
    testCommand: Option<string>,
    testRequires: Option<string>,
    pinNumpy: bool)

  /** The pinned numpy version for each (Python tag, platform tag); a partial table. */
  type PinTable = map<(Tag, string), string>

  /** Python truthiness of an optional string: present and non-empty. */
  predicate Truthy(o: Option<string>)
  {
    o.Some? && o.value != ""
  }

  /** Both environments agree at `k`: present in both with the same value, or in neither. */
  predicate SameAt(a: Env, b: Env, k: string)
  {
    (k in a <==> k in b) && (k in a ==> a[k] == b[k])
  }

  /** The builder's platform family, chosen by substring precedence on the platform tag. */
  function Family(platformTag: string): (r: string)
    ensures r == "macos" <==> Contains(platformTag, "mac")
    ensures r == "linux" <==> !Contains(platformTag, "mac") && Contains(platformTag, "linux")
    ensures r == "windows" <==> !Contains(platformTag, "mac") && !Contains(platformTag, "linux")
  {
    if Contains(platformTag, "mac") then "macos"
    else if Contains(platformTag, "linux") then "linux"
    else "windows"
  }

  /** The build selector handed to the builder for one tag. */
  function BuildSpec(tag: Tag, platformTag: string): (r: string)
    ensures |r| == |tag| + 1 + |platformTag|
    ensures r[..|tag|] == tag && r[|tag|] == '-' && r[|tag| + 1..] == platformTag
  {
    tag + "-" + platformTag
  }

  /** For one platform, the build selector determines the tag it was made from, so distinct
      missing tags give distinct builds. */
  lemma BuildSpecInjective(a: Tag, b: Tag, platformTag: string)
    requires BuildSpec(a, platformTag) == BuildSpec(b, platformTag)
    ensures a == b
  {
    var s := BuildSpec(a, platformTag);
    assert s[..|a|] == a;
    assert s[..|b|] == b;
    assert s[|s| - |platformTag| - 1..] == "-" + platformTag;
    assert |a| == |b|;
  }

  /** The environment of a release before its first build: platform family, output directory,
      the test settings when they are truthy, and verbosity 3. Every other key, and a test key
      whose setting is not truthy, keeps whatever an earlier package or release left there. */
  function ConfigureEnv(opts: Options, env: Env): (r: Env)
    ensures r.Keys == env.Keys + {PlatformKey, OutputDirKey, VerbosityKey}
      + (if Truthy(opts.testCommand) then {TestCommandKey} else {})
      + (if Truthy(opts.testRequires) then {TestRequiresKey} else {})
    ensures r[PlatformKey] == Family(opts.platformTag)
    ensures r[OutputDirKey] == opts.outputDir
    ensures r[VerbosityKey] == "3"
    ensures Truthy(opts.testCommand) ==> r[TestCommandKey] == opts.testCommand.value
    ensures !Truthy(opts.testCommand) ==> SameAt(env, r, TestCommandKey)
    ensures Truthy(opts.testRequires) ==> r[TestRequiresKey] == opts.testRequires.value
    ensures !Truthy(opts.testRequires) ==> SameAt(env, r, TestRequiresKey)
    ensures forall k :: k !in ReleaseKeys ==> SameAt(env, r, k)
    ensures forall k :: k !in Written(opts) ==> SameAt(env, r, k)
  {
    var e1 := env[PlatformKey := Family(opts.platformTag)];
    var e2 := e1[OutputDirKey := opts.outputDir];
    var e3 := if Truthy(opts.testCommand) then e2[TestCommandKey := opts.testCommand.value] else e2;
    var e4 := if Truthy(opts.testRequires) then e3[TestRequiresKey := opts.testRequires.value] else e3;
    e4[VerbosityKey := "3"]
  }

  /** The before-build command for one tag: the numpy pin when pinning is on (an error when
      the table has no entry), else the configured command when it is truthy, else nothing,
      which leaves `CIBW_BEFORE_BUILD` as it was. */
  function BeforeBuildHook(tag: Tag, opts: Options, pins: PinTable): (r: Result<Option<string>, Abort>)
    ensures r.Failure? <==> opts.pinNumpy && (tag, opts.platformTag) !in pins
    ensures r.Failure? ==> r.error == MissingPin(tag, opts.platformTag)
    ensures r.Success? && opts.pinNumpy ==>
      r.value == Some("pip install numpy==" + pins[(tag, opts.platformTag)])
    ensures !opts.pinNumpy && Truthy(opts.beforeBuild) ==> r == Success(Some(opts.beforeBuild.value))
    ensures !opts.pinNumpy && !Truthy(opts.beforeBuild) ==> r == Success(None)
  {
    if opts.pinNumpy then
      if (tag, opts.platformTag) in pins then
        Success(Some("pip install numpy==" + pins[(tag, opts.platformTag)]))
      else
        Failure(MissingPin(tag, opts.platformTag))
    else if Truthy(opts.beforeBuild) then
      Success(Some(opts.beforeBuild.value))
    else
      Success(None)
  }

  /** The environment a build of `tag` sees when the release's builds started from `start`:
      `CIBW_BUILD` set to the tag's selector, then the before-build hook applied. Fails when
      pinning is on and the table has no entry for the tag. */
  function BuildEnv(tag: Tag, opts: Options, pins: PinTable, start: Env): (r: Result<Env, Abort>)
    ensures r.Failure? <==> opts.pinNumpy && (tag, opts.platformTag) !in pins
    ensures r.Failure? ==> r.error == MissingPin(tag, opts.platformTag)
  {
    var withSpec := start[BuildKey := BuildSpec(tag, opts.platformTag)];
    match BeforeBuildHook(tag, opts, pins)
    case Failure(e) => Failure(e)
    case Success(hook) => Success(if hook.Some? then withSpec[BeforeBuildKey := hook.value] else withSpec)
  }

  /** What a build sees: its own selector in `CIBW_BUILD`; in `CIBW_BEFORE_BUILD` the numpy
      pin, else the configured command when truthy, else whatever was there when the builds
      started; and every other key as the builds found it. */
  lemma BuildEnvSettings(tag: Tag, opts: Options, pins: PinTable, start: Env)
    requires BuildEnv(tag, opts, pins, start).Success?
    ensures var e := BuildEnv(tag, opts, pins, start).value;
      BuildKey in e && e[BuildKey] == BuildSpec(tag, opts.platformTag)
    ensures var e := BuildEnv(tag, opts, pins, start).value;
      opts.pinNumpy ==>
        BeforeBuildKey in e && e[BeforeBuildKey] == "pip install numpy==" + pins[(tag, opts.platformTag)]
    ensures var e := BuildEnv(tag, opts, pins, start).value;
      !opts.pinNumpy && Truthy(opts.beforeBuild) ==>
        BeforeBuildKey in e && e[BeforeBuildKey] == opts.beforeBuild.value
    ensures var e := BuildEnv(tag, opts, pins, start).value;
      !opts.pinNumpy && !Truthy(opts.beforeBuild) ==> SameAt(start, e, BeforeBuildKey)
    ensures var e := BuildEnv(tag, opts, pins, start).value;
      forall k :: k !in BuildKeys ==> SameAt(start, e, k)
    ensures var e := BuildEnv(tag, opts, pins, start).value;
      forall k :: k != BuildKey && !(k == BeforeBuildKey && Hooked(opts)) ==> SameAt(start, e, k)
  {
  }

  /** A build's writes are all overwritten or absent at the next build of the same release:
      building `next` after `prev` sees the same environment as building `next` first, so
      nothing leaks from one tag's build into the next. */
  lemma BuildEnvAbsorbs(prev: Tag, next: Tag, opts: Options, pins: PinTable, start: Env)
    requires BuildEnv(prev, opts, pins, start).Success?
    ensures BuildEnv(next, opts, pins, BuildEnv(prev, opts, pins, start).value) == BuildEnv(next, opts, pins, start)
  {
    var mid := BuildEnv(prev, opts, pins, start).value;
    var a := BuildEnv(next, opts, pins, mid);
    var b := BuildEnv(next, opts, pins, start);
    if a.Success? {
      assert a.value.Keys == b.value.Keys;
      forall k | k in a.value ensures a.value[k] == b.value[k] {
        if k !in BuildKeys {
          assert SameAt(mid, a.value, k) && SameAt(start, mid, k) && SameAt(start, b.value, k);
        }
      }
      assert a.value == b.value;
    }
  }

  /** The external builder's exit codes by release and Python tag (for the one platform of a
      run, the tag determines the build selector, see `BuildSpecInjective`); a pair that is
      not listed exits with 0. Release names are distinct on the index (they are the keys of
      its `releases` dictionary), so a run invokes the builder at most once per pair and any
      behaviour of the builder over a run is described by one such table. Given a release
      list with a repeated name, the table gives both releases the same exit codes. */
  type ExitTable = map<(string, Tag), int>

  function ExitCode(exits: ExitTable, release: string, tag: Tag): int
  {
    if (release, tag) in exits then exits[(release, tag)] else 0
  }

  /** One invocation of the builder: the tag it was for, the environment it saw, its exit
      code. */
  datatype Attempt = Attempt(tag: Tag, env: Env, exitCode: int)

  /** Builds the tags in order, one builder invocation each, threading the environment from
      build to build. An exit code of zero goes on to the next tag; a non-zero exit code
      aborts at once, and so does a missing numpy pin. */
  method BuildAll(tags: seq<Tag>, opts: Options, pins: PinTable, start: Env, release: string, exits: ExitTable)
    returns (attempts: seq<Attempt>, env: Env, abort: Option<Abort>)
    ensures |attempts| <= |tags|
    ensures forall i :: 0 <= i < |attempts| ==> attempts[i].tag == tags[i]
    ensures forall i :: 0 <= i < |attempts| ==>
      BuildEnv(tags[i], opts, pins, start) == Success(attempts[i].env)
    ensures forall i :: 0 <= i < |attempts| ==> attempts[i].exitCode == ExitCode(exits, release, tags[i])
    ensures forall i :: 0 <= i < |attempts| - 1 ==> attempts[i].exitCode == 0
    ensures abort.None? <==>
      |attempts| == |tags| && forall i :: 0 <= i < |attempts| ==> attempts[i].exitCode == 0
    ensures abort.Some? && abort.value.BuildFailed? ==>
      |attempts| > 0 && attempts[|attempts| - 1].exitCode != 0 &&
      abort.value == BuildFailed(attempts[|attempts| - 1].exitCode)
    ensures abort.Some? && !abort.value.BuildFailed? ==>
      |attempts| < |tags| && abort.value == MissingPin(tags[|attempts|], opts.platformTag) &&
      BuildEnv(tags[|attempts|], opts, pins, start).Failure? &&
      forall i :: 0 <= i < |attempts| ==> attempts[i].exitCode == 0
    ensures forall k :: k != BuildKey && !(k == BeforeBuildKey && Hooked(opts)) ==> SameAt(start, env, k)
  {
    attempts := [];
    env := start;
    var i := 0;
    while i < |tags|
      invariant i <= |tags| && |attempts| == i
      invariant forall j :: 0 <= j < i ==> attempts[j].tag == tags[j]
      invariant forall j :: 0 <= j < i ==> BuildEnv(tags[j], opts, pins, start) == Success(attempts[j].env)
      invariant forall j :: 0 <= j < i ==> attempts[j].exitCode == ExitCode(exits, release, tags[j]) == 0
      invariant env == if i == 0 then start else attempts[i - 1].env
      invariant forall k :: k != BuildKey && !(k == BeforeBuildKey && Hooked(opts)) ==> SameAt(start, env, k)
    {
      var next := BuildEnv(tags[i], opts, pins, env);
      if i > 0 {
        BuildEnvAbsorbs(tags[i - 1], tags[i], opts, pins, start);
      }
      if next.Failure? {
        env := env[BuildKey := BuildSpec(tags[i], opts.platformTag)];
        return attempts, env, Some(next.error);
      }
      BuildEnvSettings(tags[i], opts, pins, start);
      env := next.value;
      var code := ExitCode(exits, release, tags[i]);
      ghost var before := attempts;
      attempts := attempts + [Attempt(tags[i], env, code)];
      assert forall j :: 0 <= j < i ==> attempts[j] == before[j];
      if code != 0 {
        return attempts, env, Some(BuildFailed(code));
      }
      i := i + 1;
    }
    abort := None;
  }
}

=== FILE: lex.dfy ===
/** The lexicographic order Python uses to compare lists and strings: element by element,
    a proper prefix ordered before any of its extensions. */
module Lex {

  /** `a` is a proper prefix of `b`. */
  ghost predicate ProperPrefix(a: seq<int>, b: seq<int>)
  {
    |a| < |b| && a == b[..|a|]
  }

  /** `a` and `b` first differ at position `k`, where `a` holds the smaller element. */
  ghost predicate FirstDifferenceBelowAt(a: seq<int>, b: seq<int>, k: int)
  {
    0 <= k < |a| && k < |b| && a[..k] == b[..k] && a[k] < b[k]
  }

  /** The textbook reading of the order: a proper prefix, or smaller at the first difference. */
  ghost predicate Precedes(a: seq<int>, b: seq<int>)
  {
    ProperPrefix(a, b) || exists k :: FirstDifferenceBelowAt(a, b, k)
  }

  /** The textbook order splits at the first element the same way `Less` does. */
  lemma PrecedesSplit(a: seq<int>, b: seq<int>)
    ensures Precedes(a, b) <==>
      if |a| == 0 then |b| > 0
      else if |b| == 0 then false
      else a[0] < b[0] || (a[0] == b[0] && Precedes(a[1..], b[1..]))
  {
    if |a| > 0 && |b| > 0 {
      if ProperPrefix(a, b) && a[0] == b[0] {
        assert a[1..] == b[1..][..|a| - 1];
        assert ProperPrefix(a[1..], b[1..]);
      }
      if k :| FirstDifferenceBelowAt(a, b, k) {
        if k > 0 {
          assert a[1..][..k - 1] == a[1..k] && b[1..][..k - 1] == b[1..k];
          assert FirstDifferenceBelowAt(a[1..], b[1..], k - 1);
        }
      }
      if a[0] < b[0] {
        assert FirstDifferenceBelowAt(a, b, 0);
      }
      if a[0] == b[0] && ProperPrefix(a[1..], b[1..]) {
        assert a == [a[0]] + a[1..] && b[..|a|] == [b[0]] + b[1..][..|a| - 1];
      }
      if a[0] == b[0] {
        if k :| FirstDifferenceBelowAt(a[1..], b[1..], k) {
          assert a[..k + 1] == [a[0]] + a[1..][..k] && b[..k + 1] == [b[0]] + b[1..][..k];
          assert FirstDifferenceBelowAt(a, b, k + 1);
        }
      }
    }
  }

  /** Strict lexicographic order on integer sequences, compared element by element. */
  predicate Less(a: seq<int>, b: seq<int>)
    ensures Less(a, b) <==> Precedes(a, b)
    decreases |a|
  {
    PrecedesSplit(a, b);
    if |a| == 0 then |b| > 0
    else if |b| == 0 then false
    else a[0] < b[0] || (a[0] == b[0] && Less(a[1..], b[1..]))
  }

  predicate LessEq(a: seq<int>, b: seq<int>)
  {
    Less(a, b) || a == b
  }

  lemma {:induction false} Irreflexive(a: seq<int>)
    ensures !Less(a, a)
    decreases |a|
  {
    if |a| > 0 {
      Irreflexive(a[1..]);
    }
  }

  lemma {:induction false} Asymmetric(a: seq<int>, b: seq<int>)
    requires Less(a, b)
    ensures !Less(b, a)
    decreases |a|
  {
    if |a| > 0 && |b| > 0 && a[0] == b[0] {
      Asymmetric(a[1..], b[1..]);
    }
  }

  lemma {:induction false} Transitive(a: seq<int>, b: seq<int>, c: seq<int>)
    requires Less(a, b) && Less(b, c)
    ensures Less(a, c)
    decreases |a|
  {
    if |a| > 0 && a[0] == b[0] && b[0] == c[0] {
      Transitive(a[1..], b[1..], c[1..]);
    }
  }

  /** Any two sequences are comparable: the order is total. */
  lemma {:induction false} Trichotomy(a: seq<int>, b: seq<int>)
    ensures Less(a, b) || a == b || Less(b, a)
    decreases |a|
  {
    if |a| > 0 && |b| > 0 && a[0] == b[0] {
      Trichotomy(a[1..], b[1..]);
      if a[1..] == b[1..] {
        assert a == [a[0]] + a[1..];
        assert b == [b[0]] + b[1..];
      }
    }
  }

  lemma LessEqTransitive(a: seq<int>, b: seq<int>, c: seq<int>)
    requires LessEq(a, b) && LessEq(b, c)
    ensures LessEq(a, c)
  {
    if Less(a, b) && Less(b, c) {
      Transitive(a, b, c);
    }
  }

  lemma LessLessEqTransitive(a: seq<int>, b: seq<int>, c: seq<int>)
    requires Less(a, b) && LessEq(b, c)
    ensures Less(a, c)
  {
    if Less(b, c) {
      Transitive(a, b, c);
    }
  }

  lemma LessEqLessTransitive(a: seq<int>, b: seq<int>, c: seq<int>)
    requires LessEq(a, b) && Less(b, c)
    ensures Less(a, c)
  {
    if Less(a, b) {
      Transitive(a, b, c);
    }
  }

  /** `!(b < a)` is `a <= b`: what Python's `not (x < y)` licenses. */
  lemma NotLessIsLessEq(a: seq<int>, b: seq<int>)
    requires !Less(b, a)
    ensures LessEq(a, b)
  {
    Trichotomy(a, b);
  }

  /** `a < b` rules out `b <= a`. */
  lemma LessExcludesLessEq(a: seq<int>, b: seq<int>)
    requires Less(a, b)
    ensures !LessEq(b, a)
  {
    Asymmetric(a, b);
  }
}

=== FILE: reconcile.dfy ===
/** The release loop of `process()` (autowheel/autowheel.py): each release on the package index
    is turned into a decision — skipped as too old, skipped because every wheel is present, or
    built from its source distribution for the missing tags — and the builds are driven in
    order, stopping the whole run at the first failure. Network, filesystem and printing are
    left out: the index data is an input and the builder is a table of exit codes. */
module Reconcile {
  import opened Results
  import opened Aborts
  import opened Tags
  import opened Versions
  import opened Wheels
  import opened Builder

  /** One release on the package index: its name, its parsed version and its files. */
  datatype Release = Release(name: string, version: Version, files: seq<FileRecord>)

  /** What is done with one release. */
  datatype Decision =
    | BelowMinimum                                // older than every configured version
    | AllWheelsPresent                            // nothing missing and no forced rebuild
    | Proceed(missing: seq<Tag>, sdist: FileRecord) // build `missing`, in order, from `sdist`

  /** The tags of a release that are wanted and not yet published for the platform. */
  predicate Unpublished(files: seq<FileRecord>, platformTag: string, vocabulary: seq<Tag>, t: Tag)
  {
    !(t in vocabulary && PublishedBy(files, platformTag, t))
  }

  /** The plan for one release: the range check, then the missing tags, then the skip rule,
      then the source distribution (the last `sdist` record; none is an error, raised only
      when the release is about to be built). */
  function Decide(config: Config, opts: Options, vocabulary: seq<Tag>, release: Release): (r: Result<Decision, Abort>)
    requires |config| > 0
    ensures r == Success(BelowMinimum) <==>
      forall i :: 0 <= i < |config| ==> Below(release.version, config[i].key)
    ensures r.Success? && r.value.Proceed? ==> StrictlySorted(r.value.missing)
    ensures r.Success? && r.value.Proceed? ==> forall t ::
      t in r.value.missing <==>
        t in Resolve(config, release.version).tags && Unpublished(release.files, opts.platformTag, vocabulary, t)
    ensures r.Success? && r.value.Proceed? ==>
      (exists i :: 0 <= i < |release.files| &&
        release.files[i] == r.value.sdist && release.files[i].Kind().Sdist? &&
        (forall j :: i < j < |release.files| ==> !release.files[j].Kind().Sdist?))
    ensures r.Failure? ==>
      r.error == NoSdist(release.name) &&
      (forall i :: 0 <= i < |release.files| ==> !release.files[i].Kind().Sdist?)
  {
    match Resolve(config, release.version)
    case OutOfRange =>
      Success(BelowMinimum)
    case InRange(_, required) =>
      var scan := ScanFiles(release.files, opts.platformTag, vocabulary);
      var missing := MissingTags(required, PublishedTags(release.files, opts.platformTag, vocabulary));
      if missing == [] && !opts.ignoreExisting then
        Success(AllWheelsPresent)
      else if scan.sdist.None? then
        Failure(NoSdist(release.name))
      else
        Success(Proceed(missing, scan.sdist.value))
  }

  /** The skip rule: a release in range gets past the "all wheels present" check exactly when
      some required tag is unpublished or rebuilding is forced; a release out of range never
      does, whatever the flag. */
  lemma SkipRule(config: Config, opts: Options, vocabulary: seq<Tag>, release: Release)
    requires |config| > 0
    ensures var r := Decide(config, opts, vocabulary, release);
      (r.Failure? || r.value.Proceed?) <==>
        Resolve(config, release.version).InRange? &&
        (opts.ignoreExisting ||
         exists t :: t in Resolve(config, release.version).tags &&
                     Unpublished(release.files, opts.platformTag, vocabulary, t))
  {
    var res := Resolve(config, release.version);
    if res.InRange? {
      var missing := MissingTags(res.tags, PublishedTags(release.files, opts.platformTag, vocabulary));
      MissingEmptyIff(res.tags, PublishedTags(release.files, opts.platformTag, vocabulary));
      if missing != [] {
        assert missing[0] in missing;
      }
    }
  }

  /** Forcing a rebuild bypasses only the "all wheels present" check: it changes nothing for
      a release out of range or with something missing, and where every wheel is present it
      yields a plan that builds nothing (or the missing-sdist error). */
  lemma ForcedRebuildBuildsOnlyMissing(config: Config, opts: Options, vocabulary: seq<Tag>, release: Release)
    requires |config| > 0
    ensures var plain := Decide(config, opts.(ignoreExisting := false), vocabulary, release);
      var forced := Decide(config, opts.(ignoreExisting := true), vocabulary, release);
      (plain != Success(AllWheelsPresent) ==> forced == plain) &&
      (plain == Success(AllWheelsPresent) ==>
        forced.Failure? || (forced.value.Proceed? && forced.value.missing == []))
  {
  }

  /** What happened to one release in a run: the environment the release found, its
      decision and its builder invocations. */
  datatype ReleaseRun = ReleaseRun(release: string, before: Env, decision: Decision, attempts: seq<Attempt>)

  /** A release whose builds all ran: one attempt per missing tag, each exiting with zero. */
  predicate Completed(rr: ReleaseRun)
  {
    rr.decision.Proceed? ==>
      |rr.attempts| == |rr.decision.missing| &&
      forall j :: 0 <= j < |rr.attempts| ==> rr.attempts[j].exitCode == 0
  }

  /** The builds of a release follow its missing tags in order, each with the environment the
      run promises: the release settings, its own selector, and the before-build hook by
      precedence; each records the builder's exit code for that release and tag, and every
      build but the last exited with zero, since a failed build stops the run at once. */
  ghost predicate Faithful(rr: ReleaseRun, opts: Options, pins: PinTable, exits: ExitTable)
  {
    (!rr.decision.Proceed? ==> rr.attempts == []) &&
    (rr.decision.Proceed? ==>
      |rr.attempts| <= |rr.decision.missing| &&
      (forall j :: 0 <= j < |rr.attempts| - 1 ==> rr.attempts[j].exitCode == 0) &&
      forall j :: 0 <= j < |rr.attempts| ==>
        rr.attempts[j].tag == rr.decision.missing[j] &&
        rr.attempts[j].exitCode == ExitCode(exits, rr.release, rr.attempts[j].tag) &&
        Configured(rr.attempts[j].env, rr.attempts[j].tag, opts, pins, rr.before))
  }

  /** A release's record in a run: its decision is the plan `Decide` makes for it and its
      builds are faithful to that plan. */
  ghost predicate Recorded(config: Config, opts: Options, pins: PinTable, vocabulary: seq<Tag>, exits: ExitTable,
                     release: Release, rr: ReleaseRun)
    requires |config| > 0
  {
    rr.release == release.name && Decide(config, opts, vocabulary, release) == Success(rr.decision) &&
    Faithful(rr, opts, pins, exits)
  }

  /** The settings a build's environment `e` carries, given the environment `before` its
      release found: each key is written by its setting, or keeps its value from `before`. */
  ghost predicate Configured(e: Env, tag: Tag, opts: Options, pins: PinTable, before: Env)
  {
    && PlatformKey in e && e[PlatformKey] == Family(opts.platformTag)
    && OutputDirKey in e && e[OutputDirKey] == opts.outputDir
    && VerbosityKey in e && e[VerbosityKey] == "3"
    && BuildKey in e && e[BuildKey] == BuildSpec(tag, opts.platformTag)
    && (opts.pinNumpy ==>
          (tag, opts.platformTag) in pins && BeforeBuildKey in e &&
          e[BeforeBuildKey] == "pip install numpy==" + pins[(tag, opts.platformTag)])
    && (!opts.pinNumpy && Truthy(opts.beforeBuild) ==>
          BeforeBuildKey in e && e[BeforeBuildKey] == opts.beforeBuild.value)
    && (!opts.pinNumpy && !Truthy(opts.beforeBuild) ==> SameAt(before, e, BeforeBuildKey))
    && (Truthy(opts.testCommand) ==> TestCommandKey in e && e[TestCommandKey] == opts.testCommand.value)
    && (!Truthy(opts.testCommand) ==> SameAt(before, e, TestCommandKey))
    && (Truthy(opts.testRequires) ==> TestRequiresKey in e && e[TestRequiresKey] == opts.testRequires.value)
    && (!Truthy(opts.testRequires) ==> SameAt(before, e, TestRequiresKey))
    && (forall k :: k !in ReleaseKeys && k !in BuildKeys ==> SameAt(before, e, k))
  }

  /** A build of `tag` prepared from an environment the release settings were written to
      carries the settings `Configured` names. */
  lemma ConfiguredBuild(tag: Tag, opts: Options, pins: PinTable, before: Env)
    requires BuildEnv(tag, opts, pins, ConfigureEnv(opts, before)).Success?
    ensures Configured(BuildEnv(tag, opts, pins, ConfigureEnv(opts, before)).value, tag, opts, pins, before)
  {
    var c := ConfigureEnv(opts, before);
    BuildEnvSettings(tag, opts, pins, c);
    var e := BuildEnv(tag, opts, pins, c).value;
    assert SameAt(c, e, PlatformKey) && SameAt(c, e, OutputDirKey) && SameAt(c, e, VerbosityKey);
    assert SameAt(c, e, TestCommandKey) && SameAt(c, e, TestRequiresKey);
    assert SameAt(before, c, BeforeBuildKey);
    forall k | k !in ReleaseKeys && k !in BuildKeys ensures SameAt(before, e, k) {
      assert SameAt(before, c, k) && SameAt(c, e, k);
    }
  }

  /** An abort is explained by a release's run. A build failure: its last build exited with
      the failure's code, which is not zero. A missing pin: pinning is on and the first tag
      it did not build has no pin for the platform, which is the tag the abort names. */
  predicate ExplainsAbort(rr: ReleaseRun, a: Abort, opts: Options, pins: PinTable)
  {
    && (a.BuildFailed? ==>
          |rr.attempts| > 0 && rr.attempts[|rr.attempts| - 1].exitCode != 0 &&
          a.exitCode == rr.attempts[|rr.attempts| - 1].exitCode)
    && (a.MissingPin? ==>
          rr.decision.Proceed? && opts.pinNumpy && |rr.attempts| < |rr.decision.missing| &&
          a == MissingPin(rr.decision.missing[|rr.attempts|], opts.platformTag) &&
          (rr.decision.missing[|rr.attempts|], opts.platformTag) !in pins &&
          forall j :: 0 <= j < |rr.attempts| ==> rr.attempts[j].exitCode == 0)
  }

  /** The builds of one release that passed the checks: the release settings are written
      over the environment, then the missing tags are built in order. */
  method RunRelease(opts: Options, pins: PinTable, release: string, decision: Decision, env: Env, exits: ExitTable)
    returns (rr: ReleaseRun, after: Env, abort: Option<Abort>)
    ensures rr.release == release && rr.before == env && rr.decision == decision
    ensures !decision.Proceed? ==> after == env
    ensures Faithful(rr, opts, pins, exits)
    ensures abort.None? <==> Completed(rr)
    ensures abort.Some? ==> abort.value.BuildFailed? || abort.value.MissingPin?
    ensures abort.Some? ==> ExplainsAbort(rr, abort.value, opts, pins)
    ensures forall k :: k !in Written(opts) ==> SameAt(env, after, k)
  {
    if !decision.Proceed? {
      return ReleaseRun(release, env, decision, []), env, None;
    }
    var configured := ConfigureEnv(opts, env);
    var attempts;
    attempts, after, abort := BuildAll(decision.missing, opts, pins, configured, release, exits);
    rr := ReleaseRun(release, env, decision, attempts);
    forall k | k !in Written(opts) ensures SameAt(env, after, k) {
      assert SameAt(env, configured, k) && SameAt(configured, after, k);
    }
    assert Faithful(rr, opts, pins, exits) by {
      forall j | 0 <= j < |attempts|
        ensures Configured(attempts[j].env, attempts[j].tag, opts, pins, env)
      {
        ConfiguredBuild(attempts[j].tag, opts, pins, env);
      }
    }
  }

  /** One release of the run: its plan, then its builds when the plan says to build. No
      record is made when the release is to be built but has no source distribution. */
  method Step(config: Config, opts: Options, pins: PinTable, vocabulary: seq<Tag>,
              release: Release, env: Env, exits: ExitTable)
    returns (rr: Option<ReleaseRun>, after: Env, abort: Option<Abort>)
    requires |config| > 0
    ensures rr.Some? ==> Recorded(config, opts, pins, vocabulary, exits, release, rr.value)
    ensures rr.Some? ==> rr.value.before == env
    ensures rr.Some? ==> (abort.None? <==> Completed(rr.value))
    ensures rr.Some? && abort.Some? ==> abort.value.BuildFailed? || abort.value.MissingPin?
    ensures rr.Some? && abort.Some? ==> ExplainsAbort(rr.value, abort.value, opts, pins)
    ensures rr.None? ==>
      abort == Some(NoSdist(release.name)) && Decide(config, opts, vocabulary, release).Failure? && after == env
    ensures rr.Some? && !rr.value.decision.Proceed? ==> after == env
    ensures forall k :: k !in Written(opts) ==> SameAt(env, after, k)
  {
    var decision := Decide(config, opts, vocabulary, release);
    if decision.Failure? {
      return None, env, Some(decision.error);
    }
    var run;
    run, after, abort := RunRelease(opts, pins, release.name, decision.value, env, exits);
    rr := Some(run);
  }

  /** Every key a run with these options never writes has the same value in `b` as in `a`. */
  ghost predicate UnwrittenKept(opts: Options, a: Env, b: Env)
  {
    forall k :: k !in Written(opts) ==> SameAt(a, b, k)
  }

  /** The records of a run so far: one per release, in order, from the first. */
  ghost predicate RecordedPrefix(config: Config, opts: Options, pins: PinTable, vocabulary: seq<Tag>, exits: ExitTable,
                           releases: seq<Release>, runs: seq<ReleaseRun>)
    requires |config| > 0
    decreases |runs|
  {
    |runs| <= |releases| &&
    (|runs| == 0 ||
     (RecordedPrefix(config, opts, pins, vocabulary, exits, releases, runs[..|runs| - 1]) &&
      Recorded(config, opts, pins, vocabulary, exits, releases[|runs| - 1], runs[|runs| - 1])))
  }

  /** Every record of a recorded prefix belongs to the release at the same position. */
  lemma {:induction false} RecordedPrefixAt(config: Config, opts: Options, pins: PinTable, vocabulary: seq<Tag>,
                                            exits: ExitTable, releases: seq<Release>, runs: seq<ReleaseRun>)
    requires |config| > 0
    requires RecordedPrefix(config, opts, pins, vocabulary, exits, releases, runs)
    ensures |runs| <= |releases|
    ensures forall i :: 0 <= i < |runs| ==> Recorded(config, opts, pins, vocabulary, exits, releases[i], runs[i])
    decreases |runs|
  {
    if |runs| > 0 {
      var init := runs[..|runs| - 1];
      RecordedPrefixAt(config, opts, pins, vocabulary, exits, releases, init);
      forall i | 0 <= i < |runs|
        ensures Recorded(config, opts, pins, vocabulary, exits, releases[i], runs[i])
      {
        if i < |init| {
          assert runs[i] == init[i];
        }
      }
    }
  }

  /** The state of a run after the first `i` releases have been taken in turn: a record for
      each release taken that got one, every run completed but possibly the last, and an
      abort only with its cause — a release without a source distribution (which gets no
      record) or the last run left incomplete by a failed build or a missing pin. Keys the
      run never writes keep their value from the start. */
  ghost predicate Progress(config: Config, opts: Options, pins: PinTable, vocabulary: seq<Tag>, exits: ExitTable,
                     releases: seq<Release>, start: Env, i: nat,
                     runs: seq<ReleaseRun>, env: Env, abort: Option<Abort>)
    requires |config| > 0
  {
    && |runs| <= i <= |releases|
    && (abort.None? ==> |runs| == i)
    && RecordedPrefix(config, opts, pins, vocabulary, exits, releases, runs)
    && (forall j :: 0 <= j < |runs| - 1 ==> Completed(runs[j]))
    && (abort.None? ==> forall j :: 0 <= j < |runs| ==> Completed(runs[j]))
    && (abort.Some? ==> abort.value.NoSdist? || abort.value.BuildFailed? || abort.value.MissingPin?)
    && (abort.Some? ==>
          (abort.value.NoSdist? && |runs| < |releases|) || (|runs| > 0 && !Completed(runs[|runs| - 1])))
    && (abort.Some? && abort.value.NoSdist? ==>
          |runs| < |releases| && abort.value == NoSdist(releases[|runs|].name) &&
          Decide(config, opts, vocabulary, releases[|runs|]).Failure? &&
          forall j :: 0 <= j < |runs| ==> Completed(runs[j]))
    && (abort.Some? && (abort.value.BuildFailed? || abort.value.MissingPin?) ==>
          |runs| > 0 && ExplainsAbort(runs[|runs| - 1], abort.value, opts, pins))
    && UnwrittenKept(opts, start, env)
    && (forall j :: 0 <= j < |runs| ==> UnwrittenKept(opts, start, runs[j].before))
  }

  /** A run that records the next release stays in progress. */
  lemma ProgressAfterRun(config: Config, opts: Options, pins: PinTable, vocabulary: seq<Tag>, exits: ExitTable,
                         releases: seq<Release>, start: Env, i: nat, runs: seq<ReleaseRun>, env: Env,
                         rr: ReleaseRun, after: Env, abort: Option<Abort>)
    requires |config| > 0 && i < |releases|
    requires Progress(config, opts, pins, vocabulary, exits, releases, start, i, runs, env, None)
    requires RecordedPrefix(config, opts, pins, vocabulary, exits, releases, runs + [rr])
    requires rr.before == env
    requires abort.None? <==> Completed(rr)
    requires abort.Some? ==> abort.value.BuildFailed? || abort.value.MissingPin?
    requires abort.Some? ==> ExplainsAbort(rr, abort.value, opts, pins)
    requires forall k :: k !in Written(opts) ==> SameAt(env, after, k)
    ensures Progress(config, opts, pins, vocabulary, exits, releases, start, i + 1, runs + [rr], after, abort)
  {
    var ext := runs + [rr];
    assert forall j :: 0 <= j < |runs| ==> ext[j] == runs[j];
    assert UnwrittenKept(opts, start, rr.before);
    UnwrittenKeptSnoc(opts, start, runs, rr);
  }

  /** Appending a record whose starting environment keeps the unwritten keys preserves that
      property of every record. */
  lemma UnwrittenKeptSnoc(opts: Options, start: Env, runs: seq<ReleaseRun>, rr: ReleaseRun)
    requires forall j :: 0 <= j < |runs| ==> UnwrittenKept(opts, start, runs[j].before)
    requires UnwrittenKept(opts, start, rr.before)
    ensures forall j :: 0 <= j < |runs| + 1 ==> UnwrittenKept(opts, start, (runs + [rr])[j].before)
  {
  }

  /** A recorded prefix extended by the record of the next release is a recorded prefix. */
  lemma RecordedPrefixSnoc(config: Config, opts: Options, pins: PinTable, vocabulary: seq<Tag>, exits: ExitTable,
                           releases: seq<Release>, runs: seq<ReleaseRun>, rr: ReleaseRun)
    requires |config| > 0 && |runs| < |releases|
    requires RecordedPrefix(config, opts, pins, vocabulary, exits, releases, runs)
    requires Recorded(config, opts, pins, vocabulary, exits, releases[|runs|], rr)
    ensures RecordedPrefix(config, opts, pins, vocabulary, exits, releases, runs + [rr])
  {
    var ext := runs + [rr];
    assert ext[..|ext| - 1] == runs && ext[|ext| - 1] == rr;
  }

  /** A run that meets a release it cannot build stops, with that release unrecorded. */
  lemma ProgressAfterRefusal(config: Config, opts: Options, pins: PinTable, vocabulary: seq<Tag>, exits: ExitTable,
                             releases: seq<Release>, start: Env, i: nat, runs: seq<ReleaseRun>, env: Env)
    requires |config| > 0 && i < |releases|
    requires Progress(config, opts, pins, vocabulary, exits, releases, start, i, runs, env, None)
    requires Decide(config, opts, vocabulary, releases[i]).Failure?
    ensures Progress(config, opts, pins, vocabulary, exits, releases, start, i + 1, runs, env,
                     Some(NoSdist(releases[i].name)))
  {
  }

  /** Takes the next release of a run that has not aborted. */
  method Advance(config: Config, opts: Options, pins: PinTable, vocabulary: seq<Tag>, exits: ExitTable,
                 releases: seq<Release>, start: Env, i: nat, runs: seq<ReleaseRun>, env: Env)
    returns (runs': seq<ReleaseRun>, env': Env, abort': Option<Abort>)
    requires |config| > 0 && i < |releases|
    requires Progress(config, opts, pins, vocabulary, exits, releases, start, i, runs, env, None)
    ensures Progress(config, opts, pins, vocabulary, exits, releases, start, i + 1, runs', env', abort')
  {
    var rr, after, stepAbort := Step(config, opts, pins, vocabulary, releases[i], env, exits);
    if rr.None? {
      ProgressAfterRefusal(config, opts, pins, vocabulary, exits, releases, start, i, runs, env);
      return runs, env, stepAbort;
    }
    RecordedPrefixSnoc(config, opts, pins, vocabulary, exits, releases, runs, rr.value);
    ProgressAfterRun(config, opts, pins, vocabulary, exits, releases, start, i, runs, env, rr.value, after, stepAbort);
    return runs + [rr.value], after, stepAbort;
  }

  /** The whole run over the releases of one package, in the index's order. An empty
      configuration aborts before any release; a release that is to be built but has no
      source distribution, a missing numpy pin and a non-zero builder exit abort the run. */
  method Process(config: Config, opts: Options, pins: PinTable, vocabulary: seq<Tag>,
                 releases: seq<Release>, start: Env, exits: ExitTable)
    returns (runs: seq<ReleaseRun>, env: Env, abort: Option<Abort>)
    ensures |config| == 0 ==> runs == [] && abort == Some(EmptyConfig)
    ensures abort == Some(EmptyConfig) ==> |config| == 0
    ensures |runs| <= |releases|
    ensures forall i :: 0 <= i < |runs| - 1 ==> Completed(runs[i])
    ensures abort.None? <==>
      |config| > 0 && |runs| == |releases| && forall i :: 0 <= i < |runs| ==> Completed(runs[i])
    ensures abort.Some? && abort.value.NoSdist? ==>
      |runs| < |releases| && abort.value == NoSdist(releases[|runs|].name) &&
      Decide(config, opts, vocabulary, releases[|runs|]).Failure? &&
      forall i :: 0 <= i < |runs| ==> Completed(runs[i])
    ensures abort.Some? && (abort.value.BuildFailed? || abort.value.MissingPin?) ==>
      |runs| > 0 && ExplainsAbort(runs[|runs| - 1], abort.value, opts, pins)
    ensures UnwrittenKept(opts, start, env)
    ensures forall i :: 0 <= i < |runs| ==> UnwrittenKept(opts, start, runs[i].before)
    ensures |config| > 0 ==> RecordedPrefix(config, opts, pins, vocabulary, exits, releases, runs)
  {
    runs := [];
    env := start;
    if |config| == 0 {
      return runs, env, Some(EmptyConfig);
    }
    abort := None;
    var i := 0;
    while i < |releases| && abort.None?
      invariant Progress(config, opts, pins, vocabulary, exits, releases, start, i, runs, env, abort)
    {
      runs, env, abort := Advance(config, opts, pins, vocabulary, exits, releases, start, i, runs, env);
      i := i + 1;
    }
  }
}

=== FILE: results.dfy ===
/** Small failure-carrying datatypes shared by the model. */
module Results {

  /** An optional value: Python's `None` or a present value. */
  datatype Option<+T> = None | Some(value: T)

  /** The outcome of a step that can raise: a value, or the error that aborts the run. */
  datatype Result<+T, +E> = Success(value: T) | Failure(error: E)
}

/** Why a run of the reconciler stops early. Each of these is an exception that propagates out
    of the whole run in the source. */
module Aborts {

  datatype Abort =
    | EmptyConfig                                      // `min()` of no configured versions
    | NoSdist(release: string)                         // a release to build has no `sdist` record
    | MissingPin(tag: string, platformTag: string)     // no pinned numpy for this tag and platform
    | BuildFailed(exitCode: int)                       // the builder exited with a non-zero code
}

=== FILE: tags.dfy ===
/** Python tags (`cp27`, `cp35`, ...) as strings: Python's substring test `sub in s`, Python's
    string order (by code point), and strictly sorted tag lists, which is what
    `sorted(set(...))` produces. */
module Tags {
  import Lex

  type Tag = string

  /** `sub` sits in `s` starting at position `i`. */
  ghost predicate OccursAt(s: string, sub: string, i: int)
  {
    0 <= i && i + |sub| <= |s| && s[i..i + |sub|] == sub
  }

  /** `sub` sits at some position of `s`: the positional reading of Python's `sub in s`. */
  ghost predicate Occurs(s: string, sub: string)
  {
    exists i :: OccursAt(s, sub, i)
  }

  /** An occurrence is either at the front or somewhere in the tail. */
  lemma OccursSplit(s: string, sub: string)
    ensures Occurs(s, sub) <==> sub <= s || (|s| > 0 && Occurs(s[1..], sub))
  {
    if sub <= s {
      assert OccursAt(s, sub, 0);
    }
    if |s| > 0 && Occurs(s[1..], sub) {
      var i :| OccursAt(s[1..], sub, i);
      assert s[1..][i..i + |sub|] == s[i + 1..i + 1 + |sub|];
      assert OccursAt(s, sub, i + 1);
    }
    if Occurs(s, sub) && !(sub <= s) {
      var i :| OccursAt(s, sub, i);
      if i > 0 {
        assert s[1..][i - 1..i - 1 + |sub|] == s[i..i + |sub|];
        assert OccursAt(s[1..], sub, i - 1);
      }
    }
  }

  /** Python's `sub in s` on strings, scanning the start positions from the left. The empty
      string occurs in every string. */
  predicate Contains(s: string, sub: string)
    ensures Contains(s, sub) <==> Occurs(s, sub)
    decreases |s|
  {
    OccursSplit(s, sub);
    sub <= s || (|s| > 0 && Contains(s[1..], sub))
  }

  /** An occurrence at a known position makes `sub in s` hold. */
  lemma {:induction false} ContainsAt(s: string, sub: string, i: nat)
    requires i + |sub| <= |s| && s[i..i + |sub|] == sub
    ensures Contains(s, sub)
    decreases i
  {
    if i > 0 {
      assert s[1..][i - 1..i - 1 + |sub|] == s[i..i + |sub|];
      ContainsAt(s[1..], sub, i - 1);
    }
  }

  /** A string cannot occur where one of its characters does not. */
  lemma {:induction false} AbsentCharNotContained(s: string, sub: string, k: nat)
    requires k < |sub| && sub[k] !in s
    ensures !Contains(s, sub)
    decreases |s|
  {
    if |s| > 0 {
      AbsentCharNotContained(s[1..], sub, k);
    }
  }

  /** The code points of a string, the sequence Python compares strings by. */
  function Codes(s: string): seq<int>
  {
    seq(|s|, i requires 0 <= i < |s| => s[i] as int)
  }

  lemma CodesInjective(a: string, b: string)
    requires Codes(a) == Codes(b)
    ensures a == b
  {
    assert |a| == |b|;
    forall i | 0 <= i < |a|
      ensures a[i] == b[i]
    {
      assert Codes(a)[i] == Codes(b)[i];
    }
  }

  lemma CodesPrefix(a: string, k: nat)
    requires k <= |a|
    ensures Codes(a)[..k] == Codes(a[..k])
  {
  }

  /** `a` and `b` first differ at position `k`, where `a` holds the lower code point. */
  ghost predicate CharBelowAt(a: string, b: string, k: int)
  {
    0 <= k < |a| && k < |b| && a[..k] == b[..k] && a[k] < b[k]
  }

  /** String order read character by character: a proper prefix, or a lower code point at
      the first difference. */
  ghost predicate StringPrecedes(a: string, b: string)
  {
    (|a| < |b| && a == b[..|a|]) || exists k :: CharBelowAt(a, b, k)
  }

  /** Comparing code-point sequences is comparing the strings character by character. */
  lemma CodesOrder(a: string, b: string)
    ensures Lex.Precedes(Codes(a), Codes(b)) <==> StringPrecedes(a, b)
  {
    var ca, cb := Codes(a), Codes(b);
    if |a| < |b| && ca == cb[..|a|] {
      CodesPrefix(b, |a|);
      CodesInjective(a, b[..|a|]);
    }
    if |a| < |b| && a == b[..|a|] {
      CodesPrefix(b, |a|);
      assert Lex.ProperPrefix(ca, cb);
    }
    if k :| Lex.FirstDifferenceBelowAt(ca, cb, k) {
      CodesPrefix(a, k);
      CodesPrefix(b, k);
      CodesInjective(a[..k], b[..k]);
      assert CharBelowAt(a, b, k);
    }
    if k :| CharBelowAt(a, b, k) {
      CodesPrefix(a, k);
      CodesPrefix(b, k);
      assert Lex.FirstDifferenceBelowAt(ca, cb, k);
    }
  }

  /** Python's `a < b` on strings: the code-point sequences compared in list order. */
  predicate TagLess(a: Tag, b: Tag)
    ensures TagLess(a, b) <==> StringPrecedes(a, b)
  {
    CodesOrder(a, b);
    Lex.Less(Codes(a), Codes(b))
  }

  lemma TagTrichotomy(a: Tag, b: Tag)
    ensures TagLess(a, b) || a == b || TagLess(b, a)
  {
    Lex.Trichotomy(Codes(a), Codes(b));
    if Codes(a) == Codes(b) {
      CodesInjective(a, b);
    }
  }

  lemma TagTransitive(a: Tag, b: Tag, c: Tag)
    requires TagLess(a, b) && TagLess(b, c)
    ensures TagLess(a, c)
  {
    Lex.Transitive(Codes(a), Codes(b), Codes(c));
  }

  lemma TagAsymmetric(a: Tag, b: Tag)
    requires TagLess(a, b)
    ensures !TagLess(b, a) && a != b
  {
    Lex.Asymmetric(Codes(a), Codes(b));
  }

  /** Every element is strictly below every later one: sorted and free of duplicates. */
  predicate StrictlySorted(s: seq<Tag>)
  {
    forall i, j :: 0 <= i < j < |s| ==> TagLess(s[i], s[j])
  }

  /** Inserts a tag that is not yet present at its place in a strictly sorted list. */
  function Insert(s: seq<Tag>, x: Tag): (r: seq<Tag>)
    requires StrictlySorted(s) && x !in s
    ensures StrictlySorted(r)
    ensures |r| == |s| + 1
    ensures forall y :: y in r <==> y in s || y == x
    decreases |s|
  {
    if |s| == 0 then [x]
    else if TagLess(x, s[0]) then
      assert forall j :: 0 < j < |s| ==> TagLess(x, s[j]) by {
        forall j | 0 < j < |s| ensures TagLess(x, s[j]) {
          TagTransitive(x, s[0], s[j]);
        }
      }
      [x] + s
    else
      TagTrichotomy(x, s[0]);
      var rest := Insert(s[1..], x);
      assert forall y :: y in rest ==> TagLess(s[0], y) by {
        forall y | y in rest ensures TagLess(s[0], y) {
          if y != x {
            var j :| 0 <= j < |s[1..]| && s[1..][j] == y;
            assert s[j + 1] == y;
          }
        }
      }
      [s[0]] + rest
  }

  /** A strictly sorted list is determined by its elements: two such lists holding the same
      tags are equal. This is why `sorted(set(...))` depends on the set alone. */
  lemma {:induction false} SortedUnique(a: seq<Tag>, b: seq<Tag>)
    requires StrictlySorted(a) && StrictlySorted(b)
    requires forall t :: t in a <==> t in b
    ensures a == b
    decreases |a|
  {
    assert |b| == 0 || b[0] in b;
    if |a| == 0 {
    } else {
      assert a[0] in a;
      assert |b| > 0;
      assert b[0] in b;
      if a[0] != b[0] {
        var i :| 0 <= i < |b| && b[i] == a[0];
        var j :| 0 <= j < |a| && a[j] == b[0];
        assert TagLess(b[0], a[0]);
        assert TagLess(a[0], b[0]);
        TagAsymmetric(a[0], b[0]);
        assert false;
      }
      assert forall t :: t in a[1..] <==> t in b[1..] by {
        forall t ensures t in a[1..] <==> t in b[1..] {
          if t in a[1..] {
            var k :| 0 <= k < |a[1..]| && a[1..][k] == t;
            assert TagLess(a[0], a[k + 1]);
            TagAsymmetric(a[0], t);
            assert t in b && t != b[0];
            var m :| 0 <= m < |b| && b[m] == t;
            assert b[1..][m - 1] == t;
          }
          if t in b[1..] {
            var k :| 0 <= k < |b[1..]| && b[1..][k] == t;
            assert TagLess(b[0], b[k + 1]);
            TagAsymmetric(b[0], t);
            assert t in a && t != a[0];
            var m :| 0 <= m < |a| && a[m] == t;
            assert a[1..][m - 1] == t;
          }
        }
      }
      SortedUnique(a[1..], b[1..]);
      assert a == [a[0]] + a[1..];
      assert b == [b[0]] + b[1..];
    }
  }
}

=== FILE: versions.dfy ===
/** The version-range resolver: the configuration maps package versions to the Python tags
    wanted from that version on, and a release takes the list of the greatest configured
    version at or below it (autowheel/autowheel.py, process()). */
module Versions {
  import opened Results
  import Lex
  import opened Tags

  /** A parsed `LooseVersion`: its numeric components, compared as a Python list. */
  type Version = seq<nat>

  predicate Below(a: Version, b: Version)
  {
    Lex.Less(a, b)
  }

  predicate AtMost(a: Version, b: Version)
  {
    Lex.LessEq(a, b)
  }

  /** One configuration entry: a package version and the Python tags wanted from it on. */
  datatype Entry = Entry(key: Version, tags: seq<Tag>)

  /** The `python_versions` dictionary, in its iteration order. Two keys may parse to equal
      versions (`"1"` and `"01"`), so keys are not required to be distinct. */
  type Config = seq<Entry>

  /** `min(package_versions)`. */
  function MinKey(config: Config): (m: Version)
    requires |config| > 0
    ensures exists i :: 0 <= i < |config| && config[i].key == m
    ensures forall i :: 0 <= i < |config| ==> AtMost(m, config[i].key)
    decreases |config|
  {
    if |config| == 1 then
      config[0].key
    else
      var rest := MinKey(config[1..]);
      assert forall i :: 1 <= i < |config| ==> config[i] == config[1..][i - 1];
      if Below(config[0].key, rest) then
        assert forall i :: 1 <= i < |config| ==> AtMost(config[0].key, config[i].key) by {
          forall i | 1 <= i < |config| ensures AtMost(config[0].key, config[i].key) {
            Lex.LessLessEqTransitive(config[0].key, rest, config[i].key);
          }
        }
        config[0].key
      else
        Lex.NotLessIsLessEq(rest, config[0].key);
        rest
  }

  /** `r` is the position `max([k for k in keys if k <= release])` picks: a greatest key at
      or below the release, the first of its equals; `None` when there is no such key. */
  ghost predicate IsFloor(config: Config, release: Version, r: Option<nat>)
  {
    && (r.None? <==> forall i :: 0 <= i < |config| ==> !AtMost(config[i].key, release))
    && (r.Some? ==> r.value < |config| && AtMost(config[r.value].key, release))
    && (r.Some? ==> forall i :: 0 <= i < |config| && AtMost(config[i].key, release) ==>
          AtMost(config[i].key, config[r.value].key))
    && (r.Some? ==> forall i :: 0 <= i < r.value ==> config[i].key != config[r.value].key)
  }

  /** The last entry becomes the candidate when it is at or below the release and strictly
      above the candidate so far. */
  lemma FloorTakesLast(config: Config, release: Version, prev: Option<nat>)
    requires |config| > 0 && IsFloor(config[..|config| - 1], release, prev)
    requires AtMost(config[|config| - 1].key, release)
    requires prev.None? || Below(config[prev.value].key, config[|config| - 1].key)
    ensures IsFloor(config, release, Some(|config| - 1))
  {
    var init := config[..|config| - 1];
    var last := |config| - 1;
    assert forall i :: 0 <= i < last ==> config[i] == init[i];
    forall i | 0 <= i < |config| && AtMost(config[i].key, release)
      ensures AtMost(config[i].key, config[last].key) {
      if i < last {
        Lex.LessEqTransitive(config[i].key, config[prev.value].key, config[last].key);
      }
    }
    forall i | 0 <= i < last ensures config[i].key != config[last].key {
      if AtMost(config[i].key, release) {
        Lex.LessEqLessTransitive(config[i].key, config[prev.value].key, config[last].key);
        Lex.Irreflexive(config[last].key);
      }
    }
  }

  /** Otherwise the candidate so far stays: the last entry is above the release, or not
      strictly above the candidate. */
  lemma FloorKeepsPrevious(config: Config, release: Version, prev: Option<nat>)
    requires |config| > 0 && IsFloor(config[..|config| - 1], release, prev)
    requires !(AtMost(config[|config| - 1].key, release) &&
               (prev.None? || Below(config[prev.value].key, config[|config| - 1].key)))
    ensures IsFloor(config, release, prev)
  {
    var init := config[..|config| - 1];
    var last := |config| - 1;
    assert forall i :: 0 <= i < last ==> config[i] == init[i];
    if prev.Some? && AtMost(config[last].key, release) {
      Lex.NotLessIsLessEq(config[last].key, config[prev.value].key);
    }
  }

  /** The position `max([k for k in keys if k <= release])` picks, found by the same left to
      right scan as Python's `max`, which replaces its candidate only by a strictly greater
      one; `None` when no key is at or below the release. */
  function FloorIndex(config: Config, release: Version): (r: Option<nat>)
    ensures r.None? <==> forall i :: 0 <= i < |config| ==> !AtMost(config[i].key, release)
    ensures r.Some? ==> r.value < |config| && AtMost(config[r.value].key, release)
    ensures r.Some? ==> forall i :: 0 <= i < |config| && AtMost(config[i].key, release) ==>
      AtMost(config[i].key, config[r.value].key)
    ensures r.Some? ==> forall i :: 0 <= i < r.value ==> config[i].key != config[r.value].key
    decreases |config|
  {
    if |config| == 0 then None
    else
      var last := |config| - 1;
      var prev := FloorIndex(config[..last], release);
      if AtMost(config[last].key, release) && (prev.None? || Below(config[prev.value].key, config[last].key)) then
        FloorTakesLast(config, release, prev);
        Some(last)
      else
        FloorKeepsPrevious(config, release, prev);
        prev
  }

  /** What the resolver decides for one release. */
  datatype Resolution =
    | OutOfRange                            // below every configured version: skipped
    | InRange(key: Version, tags: seq<Tag>) // the matching key and its required tags

  /** The release is skipped when it is below the minimum key; otherwise it takes the tag list
      of the greatest key at or below it. */
  function Resolve(config: Config, release: Version): (r: Resolution)
    requires |config| > 0
    ensures r.OutOfRange? <==> forall i :: 0 <= i < |config| ==> Below(release, config[i].key)
    ensures r.InRange? ==> exists i :: 0 <= i < |config| && config[i] == Entry(r.key, r.tags) &&
                                     (forall j :: 0 <= j < i ==> config[j].key != r.key)
    ensures r.InRange? ==> AtMost(r.key, release)
    ensures r.InRange? ==> forall i :: 0 <= i < |config| && AtMost(config[i].key, release) ==>
      AtMost(config[i].key, r.key)
  {
    var m := MinKey(config);
    if Below(release, m) then
      assert forall i :: 0 <= i < |config| ==> Below(release, config[i].key) by {
        forall i | 0 <= i < |config| ensures Below(release, config[i].key) {
          Lex.LessLessEqTransitive(release, m, config[i].key);
        }
      }
      OutOfRange
    else
      Lex.NotLessIsLessEq(m, release);
      match FloorIndex(config, release)
      case None =>
        assert false; OutOfRange
      case Some(i) =>
        assert config[i] == Entry(config[i].key, config[i].tags);
        InRange(config[i].key, config[i].tags)
  }

  /** The skip test against the minimum configured version: a release is out of range
      exactly when it is below the minimum key. */
  lemma SkipsBelowMinimum(config: Config, release: Version)
    requires |config| > 0
    ensures Resolve(config, release).OutOfRange? <==> Below(release, MinKey(config))
  {
    var m := MinKey(config);
    var k :| 0 <= k < |config| && config[k].key == m;
    if !Below(release, m) {
      assert !Below(release, config[k].key);
    }
  }

  /** No configured key lies strictly between the selected key and the release. */
  lemma NoKeyBetween(config: Config, release: Version, i: nat)
    requires |config| > 0 && i < |config|
    requires Resolve(config, release).InRange?
    ensures !(Below(Resolve(config, release).key, config[i].key) && AtMost(config[i].key, release))
  {
    var k := Resolve(config, release).key;
    if Below(k, config[i].key) {
      Lex.LessExcludesLessEq(k, config[i].key);
    }
  }

  /** A release equal to a configured key selects that key, not the previous range's. */
  lemma ExactKeySelected(config: Config, release: Version, j: nat)
    requires j < |config| && config[j].key == release
    ensures Resolve(config, release).InRange?
    ensures Resolve(config, release).key == release
    ensures forall i :: (0 <= i < |config| && config[i].key == release &&
      forall h :: 0 <= h < i ==> config[h].key != release) ==> Resolve(config, release).tags == config[i].tags
  {
    Lex.Irreflexive(release);
    var k := Resolve(config, release).key;
    assert AtMost(release, k);
    if Below(k, release) {
      Lex.LessExcludesLessEq(k, release);
    }
  }

  /** As the release grows, the selected key never moves back: a later key's list takes
      over entirely at its threshold. */
  lemma ResolveMonotone(config: Config, r1: Version, r2: Version)
    requires |config| > 0
    requires Resolve(config, r1).InRange? && AtMost(r1, r2)
    ensures Resolve(config, r2).InRange?
    ensures AtMost(Resolve(config, r1).key, Resolve(config, r2).key)
  {
    var k1 := Resolve(config, r1).key;
    Lex.LessEqTransitive(k1, r1, r2);
    var i :| 0 <= i < |config| && config[i].key == k1;
    if Below(r2, k1) {
      Lex.LessExcludesLessEq(r2, k1);
    }
  }

  /** The configuration of the examples below: keys `0.1` and `0.2`. */
  predicate TwoKeys(config: Config)
  {
    config == [Entry([0, 1], ["cp27", "cp35"]), Entry([0, 2], ["cp27", "cp35", "cp36"])]
  }

  /** Components compare as numbers, not as digits: `0.15` is past `0.2` and takes its list. */
  lemma NumericComponentOrder(config: Config)
    requires TwoKeys(config)
    ensures Resolve(config, [0, 15]) == InRange([0, 2], ["cp27", "cp35", "cp36"])
  {
    var r := Resolve(config, [0, 15]);
    assert AtMost(config[1].key, [0, 15]);
    assert r.InRange?;
    assert !AtMost([0, 2], [0, 1]);
  }

  /** A leading zero is dropped by the parse: `0.05` has components 0 and 5 and so it too is
      past `0.2`. */
  lemma LeadingZeroDropped(config: Config)
    requires TwoKeys(config)
    ensures Resolve(config, [0, 5]) == InRange([0, 2], ["cp27", "cp35", "cp36"])
  {
    var r := Resolve(config, [0, 5]);
    assert AtMost(config[1].key, [0, 5]);
    assert r.InRange?;
    assert !AtMost([0, 2], [0, 1]);
  }

  /** A release extending a key sorts after it and before the next: `0.1.5` takes the list of
      `0.1`; `0.0.9` is below both keys and is skipped. */
  lemma PrefixOrder(config: Config)
    requires TwoKeys(config)
    ensures Resolve(config, [0, 1, 5]) == InRange([0, 1], ["cp27", "cp35"])
    ensures Resolve(config, [0, 0, 9]) == OutOfRange
  {
    var r := Resolve(config, [0, 1, 5]);
    assert AtMost(config[0].key, [0, 1, 5]);
    assert !AtMost(config[1].key, [0, 1, 5]);
    assert Below([0, 0, 9], config[0].key) && Below([0, 0, 9], config[1].key);
  }
}

=== FILE: wheels.dfy ===
/** The missing-tag detector: which required Python tags have no wheel for the platform yet,
    and which source distribution a build would start from (autowheel/autowheel.py,
    process()). */
module Wheels {
  import opened Results
  import opened Tags

  /** What the scan makes of a file record's `packagetype`. `OtherType` stands for every
      string other than `"bdist_wheel"` and `"sdist"`; `PackageTypeOf` is the reading. */
  datatype PackageType = BdistWheel | Sdist | OtherType(name: string)

  /** The comparison of a record's `packagetype` string against `"bdist_wheel"` and then
      `"sdist"`. */
  function PackageTypeOf(s: string): (r: PackageType)
    ensures r == BdistWheel <==> s == "bdist_wheel"
    ensures r == Sdist <==> s == "sdist"
    ensures r.OtherType? ==> r.name == s && s != "bdist_wheel" && s != "sdist"
  {
    if s == "bdist_wheel" then BdistWheel
    else if s == "sdist" then Sdist
    else OtherType(s)
  }

  /** One file published for a release. */
  datatype FileRecord = FileRecord(packagetype: string, filename: string, url: string)
  {
    /** The record's `packagetype` as the scan reads it. */
    function Kind(): PackageType
    {
      PackageTypeOf(packagetype)
    }
  }

  /** A wheel counts for the platform when its filename contains the platform tag. */
  predicate WheelFor(f: FileRecord, platformTag: string)
  {
    f.Kind() == BdistWheel && Contains(f.filename, platformTag)
  }

  /** Tag `t` is published by some wheel for the platform among `files`. */
  predicate PublishedBy(files: seq<FileRecord>, platformTag: string, t: Tag)
  {
    exists f :: f in files && WheelFor(f, platformTag) && Contains(f.filename, t)
  }

  /** The recognised tags that occur in a filename, in vocabulary order. Matching is by
      substring, so a filename contributes every vocabulary tag it contains. */
  function TagsIn(filename: string, vocabulary: seq<Tag>): (r: seq<Tag>)
    ensures forall t :: t in r <==> t in vocabulary && Contains(filename, t)
    decreases |vocabulary|
  {
    if |vocabulary| == 0 then []
    else
      var rest := TagsIn(filename, vocabulary[1..]);
      if Contains(filename, vocabulary[0]) then [vocabulary[0]] + rest else rest
  }

  /** What one pass over a release's files collects. */
  datatype Scan = Scan(wheelTags: seq<Tag>, sdist: Option<FileRecord>)

  /** The scan over a release's files: wheels for the platform contribute their recognised
      tags; every `sdist` record replaces the one seen before, so the last one is kept;
      records of any other type are ignored. */
  function ScanFiles(files: seq<FileRecord>, platformTag: string, vocabulary: seq<Tag>): (r: Scan)
    ensures forall t :: t in r.wheelTags <==> t in vocabulary && PublishedBy(files, platformTag, t)
    ensures r.sdist.None? <==> forall i :: 0 <= i < |files| ==> !files[i].Kind().Sdist?
    ensures r.sdist.Some? ==> exists i :: 0 <= i < |files| && files[i] == r.sdist.value &&
                                         files[i].Kind().Sdist? &&
                                         (forall j :: i < j < |files| ==> !files[j].Kind().Sdist?)
    decreases |files|
  {
    if |files| == 0 then Scan([], None)
    else
      var init := files[..|files| - 1];
      var f := files[|files| - 1];
      var prev := ScanFiles(init, platformTag, vocabulary);
      assert files == init + [f];
      assert forall i :: 0 <= i < |init| ==> files[i] == init[i];
      assert forall t :: PublishedBy(files, platformTag, t) <==>
          PublishedBy(init, platformTag, t) || (WheelFor(f, platformTag) && Contains(f.filename, t)) by {
        forall t ensures PublishedBy(files, platformTag, t) <==>
            PublishedBy(init, platformTag, t) || (WheelFor(f, platformTag) && Contains(f.filename, t)) {
          if PublishedBy(files, platformTag, t) {
            var g :| g in files && WheelFor(g, platformTag) && Contains(g.filename, t);
            assert g in init || g == f;
          }
        }
      }
      match f.Kind()
      case BdistWheel =>
        if Contains(f.filename, platformTag) then
          Scan(prev.wheelTags + TagsIn(f.filename, vocabulary), prev.sdist)
        else
          prev
      case Sdist =>
        Scan(prev.wheelTags, Some(f))
      case OtherType(_) =>
        prev
  }

  /** `set(wheels_pythons)`: the tags already published for the platform. */
  function PublishedTags(files: seq<FileRecord>, platformTag: string, vocabulary: seq<Tag>): (r: set<Tag>)
    ensures forall t :: t in r <==> t in vocabulary && PublishedBy(files, platformTag, t)
  {
    set t | t in ScanFiles(files, platformTag, vocabulary).wheelTags
  }

  /** `sorted(set(required) - published)`. */
  function MissingTags(required: seq<Tag>, published: set<Tag>): (r: seq<Tag>)
    ensures StrictlySorted(r)
    ensures forall t :: t in r <==> t in required && t !in published
    decreases |required|
  {
    if |required| == 0 then []
    else
      var rest := MissingTags(required[1..], published);
      var t := required[0];
      if t in published || t in rest then rest else Insert(rest, t)
  }

  /** The missing list is empty exactly when every required tag is published. */
  lemma MissingEmptyIff(required: seq<Tag>, published: set<Tag>)
    ensures MissingTags(required, published) == [] <==> forall t :: t in required ==> t in published
  {
    var m := MissingTags(required, published);
    if m != [] {
      assert m[0] in m;
    }
  }

  /** The missing list depends only on the set of required tags and the published set: the
      order and repetitions of the configured list do not matter, and recomputing it from
      unchanged index data gives the same list. */
  lemma MissingDeterminedBySets(required1: seq<Tag>, required2: seq<Tag>, published: set<Tag>)
    requires forall t :: t in required1 <==> t in required2
    ensures MissingTags(required1, published) == MissingTags(required2, published)
  {
    SortedUnique(MissingTags(required1, published), MissingTags(required2, published));
  }

  /** A wheel for another platform, an `sdist` or a record of another type adds no tag. */
  lemma OtherRecordsPublishNothing(files: seq<FileRecord>, f: FileRecord, platformTag: string, vocabulary: seq<Tag>)
    requires !WheelFor(f, platformTag)
    ensures PublishedTags(files + [f], platformTag, vocabulary) == PublishedTags(files, platformTag, vocabulary)
  {
    var a := PublishedTags(files + [f], platformTag, vocabulary);
    var b := PublishedTags(files, platformTag, vocabulary);
    forall t | t in a ensures t in b {
      var g :| g in files + [f] && WheelFor(g, platformTag) && Contains(g.filename, t);
      assert g in files;
    }
  }

  /** The worked example: a macOS wheel for `cp27` already exists, so only `cp35` is
      missing. The filename is a parameter so that the verifier reasons about it through the
      lemmas on `Contains` instead of unfolding it character by character. */
  lemma MacOsExample(name: string)
    requires name == "pkg-1.0-cp27-cp27m-macosx.whl"
    ensures MissingTags(["cp27", "cp35"],
                        PublishedTags([FileRecord("bdist_wheel", name, "u")],
                                      "macosx", ["cp27", "cp35", "cp36"])) == ["cp35"]
  {
    ExampleNameHasPlatform(name);
    ExampleNameHasTag(name);
    ExampleNameLacksTags(name);
    ExamplePublished(name);
  }

  /** A lone wheel for the platform whose name contains `cp27` but neither `cp35` nor `cp36`
      publishes exactly `cp27` from that vocabulary. */
  lemma ExamplePublished(name: string)
    requires Contains(name, "macosx") && Contains(name, "cp27")
    requires !Contains(name, "cp35") && !Contains(name, "cp36")
    ensures PublishedTags([FileRecord("bdist_wheel", name, "u")], "macosx", ["cp27", "cp35", "cp36"]) == {"cp27"}
  {
    var f := FileRecord("bdist_wheel", name, "u");
    var files := [f];
    var r := PublishedTags(files, "macosx", ["cp27", "cp35", "cp36"]);
    forall t | PublishedBy(files, "macosx", t) ensures Contains(name, t) {
      var g :| g in files && WheelFor(g, "macosx") && Contains(g.filename, t);
      assert g == f;
    }
    assert "cp27" in r by {
      assert f in files && WheelFor(f, "macosx");
    }
    assert forall t :: t in r ==> t == "cp27";
  }

  lemma ExampleNameHasPlatform(name: string)
    requires name == "pkg-1.0-cp27-cp27m-macosx.whl"
    ensures Contains(name, "macosx")
  {
    assert name[19..19 + |"macosx"|] == "macosx";
    ContainsAt(name, "macosx", 19);
  }

  lemma ExampleNameHasTag(name: string)
    requires name == "pkg-1.0-cp27-cp27m-macosx.whl"
    ensures Contains(name, "cp27")
  {
    assert name[8..8 + |"cp27"|] == "cp27";
    ContainsAt(name, "cp27", 8);
  }

  lemma ExampleNameLacksTags(name: string)
    requires name == "pkg-1.0-cp27-cp27m-macosx.whl"
    ensures !Contains(name, "cp35") && !Contains(name, "cp36")
  {
    AbsentCharNotContained(name, "cp35", 2);
    AbsentCharNotContained(name, "cp36", 2);
  }
}
